=== FILE: README.md ===
# yelpProxy: a Dafny model of the proxy's decision logic

yelpProxy is a small HTTP proxy. It forwards restaurant searches and business
lookups to the Yelp Fusion API (`https://api.yelp.com/v3`) and maps upstream
failures to JSON error replies. This project models the proxy's pure decision
logic and proves properties of it. The logic has three pieces:

- the error normaliser and dispatcher (`getErrorDetails`, `isCustomError`,
  `handleControllerError`);
- the controller variant of the two endpoints (`searchRestaurants`,
  `getRestaurantById`, `fetchFromYelp`, `getErrorMessage`);
- the router variant, which is the one the server mounts. It has a middleware
  that injects the server's API key, plus the search and detail handlers.

The upstream call is abstract. A handler gets a function
`UpstreamRequest -> UpstreamResult`, so the upstream can fulfil with a body or
reject with any thrown value. A handler returns an `Exchange`, which records
two things: the upstream requests it made, and how it completed. It completes
either with a `Reply` (the status and the value handed to `res.json`) or with
an exception that escapes the handler.

Modules, leaf first:

- `Wrappers` (wrappers.dfy): `Option`.
- `Js` (js.dfy): JavaScript values and the parts of their semantics the
  proxy relies on: `typeof`, truthiness, `||`, `String(v)`, `{...v}` and
  property lookup. Numbers are unbounded integers.
- `Thrown` (thrown.dfy): what a `catch` can receive. This is an axios error
  (with or without a response), another `Error`, or any other JSON-shaped value. It also
  holds `Completion` (a value or a throw), the object view of a thrown value,
  the throwing property read and the throwing `in` operator.
- `Http` (http.dfy): the inbound request, the upstream request and result,
  the reply, the `{error: e}` body, and the `{...query, term}` merge.
- `ErrorHandler` (error_handler.dfy), `Controller` (controller.dfy) and
  `Router` (router.dfy): one module per source file.
- `Variants` (variants.dfy): how the three failure mappings relate.
- `Scenarios` (scenarios.dfy): the repository's test cases, checked against
  the model.

## Model

| member | source | states |
|---|---|---|
| Js.IndexKeyedContents | src/utils/errorHandler.ts:15 | spreading an array or a string gives exactly the keys "0".."n-1", and key String(i) holds element i; no later index overwrites an earlier one |
| Js.NatToStringInjective | src/utils/errorHandler.ts:15 | distinct indices have distinct decimal keys, which is why a spread keeps every element |
| Js.WordKeyOnlyInObject | src/utils/errorHandler.ts:14 | a key such as `error` or `statusCode` can be an own property only of a plain object, never of a JSON array or a string |
| Thrown.AsValue | src/routes/yelp.ts:26-27 | an Error exposes its message and its other own properties unchanged; an axios error with a response exposes that response's status and data; an Error without one has no `response`; a non-Error value is seen as itself |
| Thrown.Get | src/routes/yelp.ts:26 | reading a property throws a TypeError exactly when the value is null or undefined; otherwise it gives the own property or undefined |
| Thrown.In | src/utils/errorHandler.ts:14 | `key in v` throws a TypeError unless v is an object; otherwise it is true exactly when v has that own key |
| Http.WithTerm | src/controllers/yelp.ts:50 | the search parameters are the inbound query plus `term`; every other key keeps its value and none is dropped |
| ErrorHandler.GetErrorDetails | src/utils/errorHandler.ts:7-30 | an axios error with a response keeps that status unchanged (0 included); a body `{error: e}` gives a copy of e (wrapper stripped); any other body gives `{message: body}` when the body is truthy and `{message: error.message}` otherwise; a null body throws a TypeError; a bare Error gives 500 and `{message: error.message}`; any other value gives 500 and `{message: String(value)}` |
| ErrorHandler.HandleControllerError | src/utils/errorHandler.ts:43-59 | a thrown plain object or Error with own `statusCode` and `errorMessage` is replied with that statusCode and `{error: errorMessage}`, forwarded as they are; any other value gets 500 and `{error: {message: 'Internal Server Error'}}` |
| ErrorHandler.IsCustomErrorShape | src/utils/errorHandler.ts:33-40 | the shape test holds exactly for a thrown plain object or Error that has both `statusCode` and `errorMessage` as own properties; no JSON array or primitive passes it |
| ErrorHandler.NormalisedErrorForwardedAsIs | src/utils/errorHandler.ts:48-54 | a normalised error that is thrown on passes the shape test and is replied without a second normalisation or wrapping |
| ErrorHandler.RawErrorIsInternal | src/utils/errorHandler.ts:55-57 | an Error lacking an own `statusCode` or `errorMessage`, even an axios error with an upstream status, gets 500 with the fixed message |
| ErrorHandler.UpstreamErrorEndToEnd | src/utils/errorHandler.ts:10-18 | normalising and then dispatching an upstream `{error: e}` failure replies with the upstream status and body `{error: e}` |
| Controller.GetErrorMessage | src/controllers/yelp.ts:7-15 | the upstream body if a response arrived and the body is truthy, else the Error's message, else String(value); the upstream wrapper is not stripped |
| Controller.FailureReply | src/controllers/yelp.ts:28-34 | on failure the status is the response status unchanged (0 included) if a response arrived, else 500; the body is `{error: getErrorMessage(error)}` |
| Controller.FetchFromYelp | src/controllers/yelp.ts:18-35 | exactly one upstream call; on success the body is replied verbatim with 200; on failure the reply is FailureReply; nothing escapes |
| Controller.SearchRestaurants | src/controllers/yelp.ts:39-54 | a non-string authorization gives 400 with the fixed message and no upstream call; any string, including "", is forwarded verbatim with the query and `term=restaurants` to base + `/businesses/search` |
| Controller.GetRestaurantById | src/controllers/yelp.ts:56-70 | the same authorization check, then one call to base + `/businesses/` + id with empty parameters and the header forwarded verbatim |
| Controller.RepliesAreBodiesOrErrors | src/controllers/yelp.ts:26-33 | every controller reply is either the upstream body with 200 or an error body with the single key `error`, and no exception escapes |
| Router.Credential | src/routes/yelp.ts:8-9 | the injected credential is `Bearer ` + key, and `Bearer undefined` when the key is unset |
| Router.InjectCredential | src/routes/yelp.ts:7-11 | the middleware sets the authorization to the server credential whatever it was; query and id are unchanged |
| Router.FailureReply | src/routes/yelp.ts:25-30 | the status is the response status when it is present and truthy, else 500, so it is never falsy; the body is `{error: data}` when the data is truthy and `{error: error.message}` otherwise, not unwrapped; a thrown null or undefined makes the handler throw; a thrown primitive or array gets 500 and `{error: undefined}`; a thrown plain object is answered from its own `response` and `message` |
| Router.Search | src/routes/yelp.ts:13-31 | every request, with or without a valid header, reaches the upstream exactly once, carrying the server credential, the query with `term=resturants`, and base + `/businesses/search` |
| Router.Detail | src/routes/yelp.ts:33-49 | every request reaches base + `/businesses/` + id exactly once with the server credential and no parameters |
| Router.InboundCredentialIgnored | src/routes/yelp.ts:7-11 | two requests that differ only in their authorization header are handled identically by both endpoints |
| Router.InjectCredentialIdempotent | src/routes/yelp.ts:9 | applying the middleware twice equals applying it once |
| Variants.FailureRepliesAgreeOnErrors | src/routes/yelp.ts:26-27 | for a caught Error the router and the controller reply identically, except that upstream status 0 stays 0 in the controller and becomes 500 in the router |
| Variants.OnlyTheNormaliserUnwraps | src/controllers/yelp.ts:9 | for an upstream body `{error: e}`, both endpoint variants reply `{error: {error: e}}`, while getErrorDetails gives e itself |
| Variants.ThrownNonErrors | src/controllers/yelp.ts:14 | a thrown non-Error value gets 500 and its String text from the controller; the router throws exactly when the value is null or undefined, and answers a primitive or array with 500 and `{error: undefined}` |
| Variants.SearchRequestsDiffer | src/routes/yelp.ts:19-22 | the two search variants send the same URL and query keys; they differ only in the spelling of `term` and in the credential |
| Variants.SuccessIsVerbatim | src/routes/yelp.ts:24 | on upstream success all four handlers reply 200 with the upstream body verbatim |
| Scenarios.NotFoundKeepsWrapper | tests/yelp.test.ts:74-86 | the mounted detail route replies 404 to the mocked not-found error, but `body.error` is the whole upstream body and has no `code` |
| Scenarios.NotFoundThroughNormaliser | tests/yelp.test.ts:79-85 | the same failure, sent through getErrorDetails and handleControllerError, gives exactly the body the test expects |
| Scenarios.MissingAuthorization | tests/yelp.test.ts:88-96 | without an authorization header the mounted route still calls the upstream; only the controller would reply 400 |
| Scenarios.SearchSendsMisspelledTerm | tests/yelp.test.ts:16-18 | the mounted search sends `location` and `term=resturants`, not the `term=restaurants` the upstream mock matches |

## Discrepancies

The code and its tests disagree in several places. The model follows the
code. Each point below is stated as a lemma.

- The router mounts `/resturants/search` and `/resturants/:id`
  (src/routes/yelp.ts:13,33). The tests request `/restaurants/...`
  (tests/yelp.test.ts:51,66,76,91,100). Express routing is not modelled.
- The router forces `term=resturants` (src/routes/yelp.ts:21). The upstream
  mock matches `term=restaurants` (tests/yelp.test.ts:18). See
  Scenarios.SearchSendsMisspelledTerm.
- The not-found test expects `body.error.code` (tests/yelp.test.ts:79-85).
  Only getErrorDetails strips the `{error: ...}` wrapper. The controller and
  router both reply `{error: {error: ...}}`. See
  Scenarios.NotFoundKeepsWrapper and Variants.OnlyTheNormaliserUnwraps.
- The missing-authorization test expects 400 (tests/yelp.test.ts:88-96). The
  mounted router overwrites the header and never rejects. See
  Scenarios.MissingAuthorization.
- The missing-location test expects 400 (tests/yelp.test.ts:98-108). None of
  the code implements that check, so it is not modelled.
- The detail id is spliced into the upstream URL unescaped
  (src/routes/yelp.ts:36, src/controllers/yelp.ts:65). Because the router
  attaches the server's key, a request such as
  `/resturants/..%2Fevents%3Flocation%3DNYC` reaches another upstream
  endpoint (`/v3/events?location=NYC`) with that key. The model records the
  URL string as built; how the transport parses it is not modelled.
- For an upstream status of 0, the controller replies 0, and getErrorDetails
  yields `statusCode: 0`, which handleControllerError would then send. The
  router's `|| 500` replies 500 instead. See
  Variants.FailureRepliesAgreeOnErrors.

## Left out

- Transport: HTTP, axios, express, async/await and the network. The upstream
  call is a function parameter. "No reply written" is an escaping throw.
- Logging (`console.*`, `logger`), dotenv and the `action` argument of
  handleControllerError. The `action` argument only feeds the log.
- src/index.ts and src/index.js (server bootstrap, port fallback, listener),
  src/types.ts beyond the CustomError shape, and eslint.config.mjs: no
  decision logic.
- Express routing and path matching, including `resturants` versus
  `restaurants`.
- Serialisation by `res.json`. A reply body is the JavaScript value handed to
  it. On the wire, keys whose value is undefined would be dropped.
- Node's status-code validation. A reply status outside 100-999, such as 0 or
  a non-number forwarded by handleControllerError, would fail when written.
  The model keeps the status as handed to `res.status`.
- Floating-point numbers, NaN and -0. Numbers are unbounded integers; the
  proxy's own branches only test them for truthiness and forward them.
- Js.IntToString: JavaScript numbers are doubles. `String(n)` matches the
  model only for |n| < 10^21; larger magnitudes print in exponent form
  (`String(1e21)` is `"1e+21"`), and integers beyond 2^53 do not exist
  exactly. getErrorDetails and getErrorMessage print a thrown number with
  `String`, so for such values their `message` text differs.
- Object key order. Objects and queries are maps, so the position of `term`
  in the outbound query string is not modelled.
- Inherited and non-enumerable properties, such as an array's `length`. The
  only such key the source reads is an Error's `message`, which
  Thrown.AsValue exposes directly; the model never spreads an Error.
- Thrown non-Error values are JSON-shaped: a JsValue array holds only its
  elements, so an array carrying named own properties, which `isCustomError`
  would accept, is not modelled.
- `axios.isAxiosError` on a plain object carrying `isAxiosError: true`. The
  model counts only AxiosError values as axios errors.
- Router.Detail: the URL is the string handed to axios. Express has already
  decoded `:id`, and the transport does not re-escape `/`, `?`, `#` or `..`
  in it, so such an id changes the upstream path or adds query parameters
  that `params` does not show. The same holds for Controller.GetRestaurantById.
- Js.Spread: strings are sequences of Unicode scalar values, while
  JavaScript indexes UTF-16 code units. Spreading a string with characters
  outside the Basic Multilingual Plane therefore gives fewer keys in the
  model than in JavaScript. This affects getErrorDetails only for an
  upstream body `{error: <string>}`.
- Reassigning an Error's `message` or `response` after it is constructed.
  The model keeps the values the constructor gives. Other own properties an
  Error carries, such as `statusCode`, are modelled.

=== FILE: controller.dfy ===
/** The controller variant of the two endpoints: check that an authorization
    header is present, forward it verbatim, and map an upstream failure to
    `{error: message}` without normalising the upstream body. */
module Controller {
  import opened Js
  import opened Thrown
  import opened Http

  /** The message of the 400 reply for a missing or non-string header. */
  const AuthorizationInvalid: string := "Authorization header is missing or invalid"

  /** The `term` the controller forces on every search. */
  const SearchTerm: string := "restaurants"

  /** The reply of a request whose authorization header is not a string. */
  const AuthorizationRejected: Reply := Reply(Num(400), ErrorBody(Str(AuthorizationInvalid)))

  /** `getErrorMessage(error)`: the upstream body when a response arrived and
      its body is truthy, else the Error's message, else `String(error)`.
      Despite its declared `string` type the result is the whole upstream
      body, `{error: ...}` wrapper included. */
  function GetErrorMessage(error: Thrown): (m: JsValue)
    ensures error.HasResponse() ==> m == Or(error.response.value.data, Str(error.message))
    ensures !error.HasResponse() && error.IsErrorInstance() ==> m == Str(error.message)
    ensures error.Other? ==> m == Str(ToString(error.value))
  {
    if error.HasResponse() then Or(error.response.value.data, Str(error.message))
    else if error.IsErrorInstance() then Str(error.message)
    else Str(ToString(error.value))
  }

  /** The `catch` block of `fetchFromYelp`: the upstream status, unchanged
      (0 included), when a response arrived, otherwise 500. */
  function FailureReply(error: Thrown): (r: Reply)
    ensures error.HasResponse() ==> r.status == Num(error.response.value.status)
    ensures !error.HasResponse() ==> r.status == Num(500)
    ensures r.body == ErrorBody(GetErrorMessage(error))
  {
    var statusCode := if error.HasResponse() then error.response.value.status else 500;
    Reply(Num(statusCode), ErrorBody(GetErrorMessage(error)))
  }

  /** `fetchFromYelp(url, params, headers, res)`: exactly one upstream call;
      its body is replied verbatim with 200 on success, and a failure is
      mapped by FailureReply. Nothing escapes. */
  function FetchFromYelp(request: UpstreamRequest, upstream: UpstreamRequest -> UpstreamResult): (x: Exchange)
    ensures x.sent == [request]
    ensures upstream(request).Fulfilled? ==> x.outcome == Normal(Reply(Num(200), upstream(request).data))
    ensures upstream(request).Rejected? ==> x.outcome == Normal(FailureReply(upstream(request).error))
  {
    var outcome := match upstream(request)
      case Fulfilled(data) => Reply(Num(200), data)
      case Rejected(error) => FailureReply(error);
    Exchange([request], Normal(outcome))
  }

  /** The upstream search request for an accepted credential. */
  function SearchRequest(req: InboundRequest, authorization: string): UpstreamRequest
  {
    UpstreamRequest(YelpApiUrl + "/businesses/search", WithTerm(req.query, SearchTerm), Str(authorization))
  }

  /** The upstream detail request for an accepted credential: no parameters. */
  function DetailRequest(req: InboundRequest, authorization: string): UpstreamRequest
  {
    UpstreamRequest(YelpApiUrl + "/businesses/" + req.id, map[], Str(authorization))
  }

  /** `searchRestaurants(req, res)`: a non-string authorization header is
      answered with 400 and no upstream call; any string, the empty one
      included, is forwarded verbatim, with the query passed on and `term`
      forced to "restaurants". */
  function SearchRestaurants(req: InboundRequest, upstream: UpstreamRequest -> UpstreamResult): (x: Exchange)
    ensures !req.authorization.Str? ==> x == Exchange([], Normal(AuthorizationRejected))
    ensures req.authorization.Str? ==>
              && x.sent == [UpstreamRequest(YelpApiUrl + "/businesses/search",
                                            WithTerm(req.query, "restaurants"), req.authorization)]
              && x == FetchFromYelp(x.sent[0], upstream)
  {
    if TypeOf(req.authorization) != "string" then
      Exchange([], Normal(AuthorizationRejected))
    else
      FetchFromYelp(SearchRequest(req, req.authorization.s), upstream)
  }

  /** `getRestaurantById(req, res)`: the same authorization check, then one
      call to `/businesses/<id>` with empty parameters. */
  function GetRestaurantById(req: InboundRequest, upstream: UpstreamRequest -> UpstreamResult): (x: Exchange)
    ensures !req.authorization.Str? ==> x == Exchange([], Normal(AuthorizationRejected))
    ensures req.authorization.Str? ==>
              && x.sent == [UpstreamRequest(YelpApiUrl + "/businesses/" + req.id, map[], req.authorization)]
              && x == FetchFromYelp(x.sent[0], upstream)
  {
    if TypeOf(req.authorization) != "string" then
      Exchange([], Normal(AuthorizationRejected))
    else
      FetchFromYelp(DetailRequest(req, req.authorization.s), upstream)
  }

  /** Every reply either endpoint writes is the upstream body verbatim with
      200, or an error reply of the shape `{error: ...}`; the controller
      never lets an exception escape. */
  lemma RepliesAreBodiesOrErrors(req: InboundRequest, upstream: UpstreamRequest -> UpstreamResult)
    ensures var x := SearchRestaurants(req, upstream);
            x.outcome.Normal?
            && (|| (|x.sent| == 1 && upstream(x.sent[0]).Fulfilled?
                    && x.outcome.value == Reply(Num(200), upstream(x.sent[0]).data))
                || (x.outcome.value.body.Obj? && x.outcome.value.body.fields.Keys == {"error"}))
    ensures var x := GetRestaurantById(req, upstream);
            x.outcome.Normal?
            && (|| (|x.sent| == 1 && upstream(x.sent[0]).Fulfilled?
                    && x.outcome.value == Reply(Num(200), upstream(x.sent[0]).data))
                || (x.outcome.value.body.Obj? && x.outcome.value.body.fields.Keys == {"error"}))
  {
  }
}

=== FILE: error_handler.dfy ===
/** The error normaliser and dispatcher: `getErrorDetails` sorts any thrown
    value into a status code and an error object, and `handleControllerError`
    turns a thrown value into the HTTP reply. */
module ErrorHandler {
  import opened Wrappers
  import opened Js
  import opened Thrown
  import opened Http

  /** A normalised error: the status to reply with and the error object (never
      a bare string) to put under `error`. */
  datatype ErrorDetails = ErrorDetails(errorMessage: map<string, JsValue>, statusCode: int)

  /** The error object holding one `message` entry. */
  function MessageObject(message: JsValue): map<string, JsValue>
  {
    map["message" := message]
  }

  /** An upstream error body of the shape `{error: ...}`, whose wrapper the
      normaliser strips. */
  predicate WrapsError(data: JsValue)
  {
    data.Obj? && "error" in data.fields
  }

  /** `getErrorDetails(error)`. In priority order:
      1. an axios error that received a response keeps that response's status,
         whatever it is; its error object is a copy of the body's nested
         `error` value when the body is an object holding one, and otherwise
         `{message: body || error.message}`. A `null` body makes the
         `'error' in body` test throw a TypeError, since `typeof null` is
         `"object"`;
      2. any other Error gives 500 and `{message: error.message}`;
      3. any other thrown value gives 500 and `{message: String(value)}`. */
  function GetErrorDetails(error: Thrown): (r: Completion<ErrorDetails>)
    ensures r.Throw? <==> error.HasResponse() && error.response.value.data == Null
    ensures r.Throw? ==> r.exception.RuntimeError? && r.exception.name == "TypeError"
    ensures r.Normal? && error.HasResponse() ==> r.value.statusCode == error.response.value.status
    ensures !error.HasResponse() ==> r.Normal? && r.value.statusCode == 500
    ensures error.HasResponse() && WrapsError(error.response.value.data) ==>
              r.Normal? && r.value.errorMessage == Spread(error.response.value.data.fields["error"])
    ensures error.HasResponse() && !WrapsError(error.response.value.data) && r.Normal? ==>
              r.value.errorMessage == MessageObject(Or(error.response.value.data, Str(error.message)))
    ensures !error.HasResponse() && error.IsErrorInstance() ==>
              r.Normal? && r.value.errorMessage == MessageObject(Str(error.message))
    ensures error.Other? ==> r.Normal? && r.value.errorMessage == MessageObject(Str(ToString(error.value)))
  {
    if error.HasResponse() then
      var data := error.response.value.data;
      var unwrap :- if TypeOf(data) == "object" then In("error", data) else Normal(false);
      WordKeyOnlyInObject(data, "error");
      Normal(ErrorDetails(
        if unwrap then Spread(Prop(data, "error")) else MessageObject(Or(data, Str(error.message))),
        error.response.value.status))
    else if error.IsErrorInstance() then
      Normal(ErrorDetails(MessageObject(Str(error.message)), 500))
    else
      Normal(ErrorDetails(MessageObject(Str(ToString(error.value))), 500))
  }

  /** The body of the reply for anything that is not a normalised error. */
  const InternalServerError: JsValue := ErrorBody(Obj(MessageObject(Str("Internal Server Error"))))

  /** `isCustomError(error)`: a non-null object that has both a `statusCode`
      and an `errorMessage` property. */
  predicate IsCustomError(error: Thrown)
  {
    var v := AsValue(error);
    && TypeOf(v) == "object"
    && v != Null
    && In("statusCode", v) == Normal(true)
    && In("errorMessage", v) == Normal(true)
  }

  /** The shape `isCustomError` looks for, stated on the thrown value: a
      plain object, or an Error, with own `statusCode` and `errorMessage`
      properties. */
  predicate HasCustomShape(error: Thrown)
  {
    match error
    case Other(v) => v.Obj? && "statusCode" in v.fields && "errorMessage" in v.fields
    case _ => "statusCode" in error.own && "errorMessage" in error.own
  }

  /** `handleControllerError(error, res, action)`: a thrown value of the
      normalised shape is replied with its own `statusCode` and
      `{error: errorMessage}`, both forwarded as they are; anything else is a
      500 with a fixed message. */
  function HandleControllerError(error: Thrown): (r: Reply)
    ensures error.Other? && HasCustomShape(error) ==>
              r == Reply(error.value.fields["statusCode"], ErrorBody(error.value.fields["errorMessage"]))
    ensures error.IsErrorInstance() && HasCustomShape(error) ==>
              r == Reply(error.own["statusCode"], ErrorBody(error.own["errorMessage"]))
    ensures !HasCustomShape(error) ==> r == Reply(Num(500), InternalServerError)
  {
    IsCustomErrorShape(error);
    if IsCustomError(error) then
      var v := AsValue(error);
      Reply(Prop(v, "statusCode"), ErrorBody(Prop(v, "errorMessage")))
    else
      Reply(Num(500), InternalServerError)
  }

  /** A normalised error as the plain object `{statusCode, errorMessage}`
      that callers throw on to the dispatcher. */
  function AsThrown(details: ErrorDetails): Thrown
  {
    Other(Obj(map["statusCode" := Num(details.statusCode), "errorMessage" := Obj(details.errorMessage)]))
  }

  /** The shape test holds exactly for a thrown plain object or Error that
      carries both keys as own properties: no array or primitive passes it. */
  lemma IsCustomErrorShape(error: Thrown)
    ensures IsCustomError(error) <==> HasCustomShape(error)
  {
    var v := AsValue(error);
    WordKeyOnlyInObject(v, "statusCode");
    if error.IsErrorInstance() {
      assert "statusCode" !in BuiltinKeys && "errorMessage" !in BuiltinKeys;
    }
  }

  /** Every error the normaliser produces, thrown on, passes the shape test
      and is forwarded without being normalised or wrapped a second time. */
  lemma NormalisedErrorForwardedAsIs(details: ErrorDetails)
    ensures IsCustomError(AsThrown(details))
    ensures HandleControllerError(AsThrown(details))
              == Reply(Num(details.statusCode), ErrorBody(Obj(details.errorMessage)))
  {
  }

  /** An Error reaching the dispatcher without normalisation, including an
      axios error carrying an upstream status, is a 500 with the fixed
      message unless it carries both `statusCode` and `errorMessage` of its
      own: the upstream status is lost. */
  lemma RawErrorIsInternal(error: Thrown)
    requires error.IsErrorInstance()
    requires "statusCode" !in error.own || "errorMessage" !in error.own
    ensures HandleControllerError(error) == Reply(Num(500), InternalServerError)
  {
  }

  /** Normalising and then dispatching replies with the upstream status and
      the upstream body's nested error object, unwrapped. */
  lemma UpstreamErrorEndToEnd(status: int, nested: map<string, JsValue>, message: string)
    ensures var error := AxiosError(Some(HttpResponse(status, Obj(map["error" := Obj(nested)]))), message, map[]);
            var details := GetErrorDetails(error);
            details.Normal?
            && HandleControllerError(AsThrown(details.value)) == Reply(Num(status), ErrorBody(Obj(nested)))
  {
  }
}

=== FILE: http.dfy ===
/** The shapes at both ends of the proxy: the inbound request, the upstream
    request it gives rise to, the upstream call's outcome, and the reply handed
    to `res.status(..).json(..)`. */
module Http {
  import opened Js
  import opened Thrown

  /** The base URL every upstream path is appended to. */
  const YelpApiUrl: string := "https://api.yelp.com/v3"

  /** The inbound request fields the handlers read: the `authorization`
      header (`undefined` when absent), the parsed query, and the `:id` path
      parameter of the detail route. */
  datatype InboundRequest = InboundRequest(authorization: JsValue, query: map<string, JsValue>, id: string)

  /** One upstream `axios.get(url, {headers: {Authorization}, params})`. */
  datatype UpstreamRequest = UpstreamRequest(url: string, params: map<string, JsValue>, authorization: JsValue)

  /** How the upstream call settled. */
  datatype UpstreamResult = Fulfilled(data: JsValue) | Rejected(error: Thrown)

  /** A reply: the status passed to `res.status` (200 when the handler only
      calls `res.json`) and the value passed to `res.json`. The status is a
      JavaScript value because the error dispatcher forwards whatever a
      thrown object's `statusCode` holds. */
  datatype Reply = Reply(status: JsValue, body: JsValue)

  /** One request's handling: the upstream requests made, in order, and how
      the handler completed. A Throw outcome is an exception escaping the
      async handler, after which no reply is written. */
  datatype Exchange = Exchange(sent: seq<UpstreamRequest>, outcome: Completion<Reply>)

  /** The body `{error: e}` of every error reply. */
  function ErrorBody(e: JsValue): (body: JsValue)
    ensures body.Obj? && body.fields.Keys == {"error"} && body.fields["error"] == e
  {
    Obj(map["error" := e])
  }

  /** The search parameters `{...query, term}`: the inbound query with `term`
      set; every other key keeps its value and no key is dropped. */
  function WithTerm(query: map<string, JsValue>, term: string): (params: map<string, JsValue>)
    ensures params.Keys == query.Keys + {"term"}
    ensures params["term"] == Str(term)
    ensures forall k :: k in query && k != "term" ==> params[k] == query[k]
  {
    query["term" := Str(term)]
  }
}

=== FILE: js.dfy ===
/** The slice of JavaScript value semantics the proxy depends on: decoded JSON
    bodies and query values, `typeof`, truthiness and `||`, `String(v)`, object
    spread `{...v}` and own-property lookup.

    Numbers are unbounded integers: the proxy only tests, forwards and prints
    them, and nothing it does depends on fractions, NaN or the sign of zero.
    JavaScript numbers are doubles, so `String(n)` agrees with IntToString
    only for magnitudes below 10^21 (larger ones print in exponent form) and
    integers beyond 2^53 have no exact JavaScript counterpart. */
module Js {

  datatype JsValue =
    | Undefined
    | Null
    | Bool(b: bool)
    | Num(n: int)
    | Str(s: string)
    | Arr(items: seq<JsValue>)
    | Obj(fields: map<string, JsValue>)

  /** The result of the `typeof` operator. Note `typeof null === "object"`. */
  function TypeOf(v: JsValue): string
  {
    match v
    case Undefined => "undefined"
    case Bool(_) => "boolean"
    case Num(_) => "number"
    case Str(_) => "string"
    case Null => "object"
    case Arr(_) => "object"
    case Obj(_) => "object"
  }

  /** `undefined` and `null`, the values on which a property read throws. */
  predicate Nullish(v: JsValue)
  {
    v.Undefined? || v.Null?
  }

  /** JavaScript truthiness: false, 0, "", null and undefined are falsy. */
  predicate Truthy(v: JsValue)
  {
    match v
    case Undefined => false
    case Null => false
    case Bool(b) => b
    case Num(n) => n != 0
    case Str(s) => s != ""
    case Arr(_) => true
    case Obj(_) => true
  }

  /** `a || b`: the left operand when it is truthy, otherwise the right one. */
  function Or(a: JsValue, b: JsValue): (r: JsValue)
    ensures r == a || r == b
    ensures Truthy(r) <==> Truthy(a) || Truthy(b)
  {
    if Truthy(a) then a else b
  }

  /** A one-character decimal digit. */
  function DigitChar(d: nat): (c: char)
    requires d < 10
    ensures '0' <= c <= '9'
  {
    ('0' as int + d) as char
  }

  /** The decimal text of a natural number, without leading zeros. */
  function NatToString(n: nat): (s: string)
    ensures 1 <= |s|
    ensures n < 10 <==> |s| == 1
    ensures forall i :: 0 <= i < |s| ==> '0' <= s[i] <= '9'
  {
    if n < 10 then [DigitChar(n)] else NatToString(n / 10) + [DigitChar(n % 10)]
  }

  /** Distinct naturals have distinct decimal texts, so the index keys `"0"`,
      `"1"`, ... of an array or string never collide. */
  lemma {:induction false} NatToStringInjective(a: nat, b: nat)
    requires NatToString(a) == NatToString(b)
    ensures a == b
    decreases a
  {
    var sa, sb := NatToString(a), NatToString(b);
    if a < 10 {
      assert sa[0] == sb[0];
    } else {
      assert 10 <= b;
      assert sa[|sa| - 1] == DigitChar(a % 10);
      assert sb[|sb| - 1] == DigitChar(b % 10);
      assert a % 10 == b % 10;
      assert sa[..|sa| - 1] == NatToString(a / 10);
      assert sb[..|sb| - 1] == NatToString(b / 10);
      NatToStringInjective(a / 10, b / 10);
    }
  }

  /** The decimal text of an integer, as `String(n)` writes it for
      magnitudes below 10^21. */
  function IntToString(n: int): string
  {
    if n < 0 then "-" + NatToString(-n) else NatToString(n)
  }

  /** `parts.join(sep)`. */
  function Join(parts: seq<string>, sep: string): string
  {
    if |parts| == 0 then ""
    else if |parts| == 1 then parts[0]
    else Join(parts[..|parts| - 1], sep) + sep + parts[|parts| - 1]
  }

  /** `String(v)`. An array prints its elements joined with commas, with
      `null` and `undefined` elements printed as empty text; a plain object
      prints as `[object Object]`. */
  function ToString(v: JsValue): string
  {
    match v
    case Undefined => "undefined"
    case Null => "null"
    case Bool(b) => if b then "true" else "false"
    case Num(n) => IntToString(n)
    case Str(s) => s
    case Arr(items) =>
      Join(seq(|items|, i requires 0 <= i < |items| =>
                 if Nullish(items[i]) then "" else ToString(items[i])), ",")
    case Obj(_) => "[object Object]"
  }

  /** The own index-keyed properties of an array-like: key `String(i)` holds
      element `i`. */
  function IndexKeyed(xs: seq<JsValue>): map<string, JsValue>
  {
    if |xs| == 0 then map[]
    else IndexKeyed(xs[..|xs| - 1])[NatToString(|xs| - 1) := xs[|xs| - 1]]
  }

  /** An array-like's spread has exactly the keys `"0"` .. `String(n-1)`, and
      key `String(i)` holds element `i`: a later index never overwrites an
      earlier one. */
  lemma {:induction false} IndexKeyedContents(xs: seq<JsValue>)
    ensures forall i :: 0 <= i < |xs| ==>
              NatToString(i) in IndexKeyed(xs) && IndexKeyed(xs)[NatToString(i)] == xs[i]
    ensures forall k :: k in IndexKeyed(xs) ==> exists i :: 0 <= i < |xs| && k == NatToString(i)
  {
    if |xs| > 0 {
      var last := |xs| - 1;
      var front := xs[..last];
      IndexKeyedContents(front);
      var m := IndexKeyed(front);
      assert IndexKeyed(xs) == m[NatToString(last) := xs[last]];
      forall i | 0 <= i < |xs|
        ensures NatToString(i) in IndexKeyed(xs) && IndexKeyed(xs)[NatToString(i)] == xs[i]
      {
        if i < last {
          if NatToString(i) == NatToString(last) {
            NatToStringInjective(i, last);
          }
          assert front[i] == xs[i];
        }
      }
      forall k | k in IndexKeyed(xs)
        ensures exists i :: 0 <= i < |xs| && k == NatToString(i)
      {
        if k != NatToString(last) {
          assert k in m;
          var i :| 0 <= i < |front| && k == NatToString(i);
          assert 0 <= i < |xs|;
        }
      }
    }
  }

  /** Every own key of an array-like is a run of decimal digits, so a word
      such as `error` or `statusCode` is never one. */
  lemma IndexKeysAreDigits(xs: seq<JsValue>, k: string)
    requires k in IndexKeyed(xs)
    ensures 1 <= |k| && forall j :: 0 <= j < |k| ==> '0' <= k[j] <= '9'
  {
  }

  /** The characters of a string as one-character strings. */
  function Chars(s: string): (cs: seq<JsValue>)
    ensures |cs| == |s|
    ensures forall i :: 0 <= i < |s| ==> cs[i] == Str([s[i]])
  {
    seq(|s|, i requires 0 <= i < |s| => Str([s[i]]))
  }

  /** The own enumerable properties of `v`, which is what the object spread
      `{...v}` copies: an object's fields (a shallow copy), the indices of an
      array or of a string's characters, and nothing for any other value
      (including `null` and `undefined`, which spread to `{}`). */
  function Spread(v: JsValue): (m: map<string, JsValue>)
  {
    match v
    case Obj(fields) => fields
    case Arr(items) => IndexKeyed(items)
    case Str(s) => IndexKeyed(Chars(s))
    case _ => map[]
  }

  /** A key that does not start with a digit is an own property only of a
      plain object: arrays and strings spread to index keys alone. */
  lemma WordKeyOnlyInObject(v: JsValue, key: string)
    requires 1 <= |key| && !('0' <= key[0] <= '9')
    ensures key in Spread(v) ==> v.Obj?
  {
    match v
    case Arr(items) =>
      if key in Spread(v) {
        IndexKeysAreDigits(items, key);
      }
    case Str(s) =>
      if key in Spread(v) {
        IndexKeysAreDigits(Chars(s), key);
      }
    case _ =>
  }

  /** `v[key]` on a value that is not `null` or `undefined`: an own property,
      or `undefined`. Inherited and non-enumerable properties (`length`,
      methods) are not modelled; the only one the proxy reads is an Error's
      `message`, which the object view of a thrown value exposes directly. */
  function Prop(v: JsValue, key: string): JsValue
  {
    var own := Spread(v);
    if key in own then own[key] else Undefined
  }
}

=== FILE: router.dfy ===
/** The router variant of the two endpoints, the one the server mounts: a
    middleware replaces every inbound credential with the server's API key,
    the handlers validate nothing, and a failure is mapped with `||`
    fallbacks on the caught value's properties. */
module Router {
  import opened Wrappers
  import opened Js
  import opened Thrown
  import opened Http

  /** The `term` the router forces on every search, spelled as in the
      router. */
  const SearchTerm: string := "resturants"

  /** `Bearer ${YELP_API_KEY}`: an unset key prints as `undefined`. */
  function Credential(apiKey: Option<string>): (c: string)
    ensures apiKey.Some? ==> c == "Bearer " + apiKey.value
    ensures apiKey.None? ==> c == "Bearer undefined"
  {
    "Bearer " + ToString(match apiKey case Some(key) => Str(key) case None => Undefined)
  }

  /** The middleware: the authorization header becomes the server credential,
      whatever it was, and nothing else about the request changes. */
  function InjectCredential(req: InboundRequest, apiKey: Option<string>): (r: InboundRequest)
    ensures r.authorization == Str(Credential(apiKey))
    ensures r.query == req.query && r.id == req.id
  {
    req.(authorization := Str(Credential(apiKey)))
  }

  /** The `catch` blocks of both handlers:
      `status = error.response?.status || 500` and
      `body = {error: error.response?.data || error.message}`.
      Reading `error.response` throws when the caught value is `null` or
      `undefined`, and that TypeError escapes the handler. A thrown primitive
      or array has neither property, so it is answered with 500 and
      `{error: undefined}`; a thrown plain object is answered from its own
      `response` and `message` properties. */
  function FailureReply(error: Thrown): (r: Completion<Reply>)
    ensures r.Throw? <==> error.Other? && Nullish(error.value)
    ensures r.Normal? ==> Truthy(r.value.status)
    ensures r.Normal? ==> r.value.body.Obj? && r.value.body.fields.Keys == {"error"}
    ensures error.HasResponse() ==>
              r == Normal(Reply(Or(Num(error.response.value.status), Num(500)),
                                ErrorBody(Or(error.response.value.data, Str(error.message)))))
    ensures error.IsErrorInstance() && !error.HasResponse() ==>
              r == Normal(Reply(Num(500), ErrorBody(Str(error.message))))
    ensures error.Other? && !Nullish(error.value) && !error.value.Obj? ==>
              r == Normal(Reply(Num(500), ErrorBody(Undefined)))
    ensures error.Other? && error.value.Obj? ==>
              var fields := error.value.fields;
              var response := if "response" in fields then fields["response"] else Undefined;
              var message := if "message" in fields then fields["message"] else Undefined;
              r == Normal(Reply(Or(OptionalGet(response, "status"), Num(500)),
                                ErrorBody(Or(OptionalGet(response, "data"), message))))
  {
    var e := AsValue(error);
    WordKeyOnlyInObject(e, "response");
    WordKeyOnlyInObject(e, "message");
    var response :- Get(e, "response");
    var statusCode := Or(OptionalGet(response, "status"), Num(500));
    var data := OptionalGet(response, "data");
    // `error.message` is read only when the data is falsy, and cannot throw:
    // `error` was read from above, so it is neither null nor undefined.
    var errorMessage := if Truthy(data) then data else Prop(e, "message");
    Normal(Reply(statusCode, ErrorBody(errorMessage)))
  }

  /** How a handler completes once the upstream call settles: the body
      verbatim with 200, or FailureReply. */
  function Respond(result: UpstreamResult): (r: Completion<Reply>)
    ensures result.Fulfilled? ==> r == Normal(Reply(Num(200), result.data))
    ensures result.Rejected? ==> r == FailureReply(result.error)
  {
    match result
    case Fulfilled(data) => Normal(Reply(Num(200), data))
    case Rejected(error) => FailureReply(error)
  }

  /** `GET /resturants/search` after the middleware: one upstream call with
      the request's (injected) credential, and the query passed on with
      `term` forced to "resturants". */
  function SearchHandler(req: InboundRequest, upstream: UpstreamRequest -> UpstreamResult): Exchange
  {
    var request := UpstreamRequest(YelpApiUrl + "/businesses/search", WithTerm(req.query, SearchTerm), req.authorization);
    Exchange([request], Respond(upstream(request)))
  }

  /** `GET /resturants/:id` after the middleware: one upstream call to
      `/businesses/<id>` without parameters. */
  function DetailHandler(req: InboundRequest, upstream: UpstreamRequest -> UpstreamResult): Exchange
  {
    var request := UpstreamRequest(YelpApiUrl + "/businesses/" + req.id, map[], req.authorization);
    Exchange([request], Respond(upstream(request)))
  }

  /** The mounted search endpoint, middleware included: every request, with
      any header or none, reaches the upstream exactly once, carrying the
      server credential. */
  function Search(req: InboundRequest, apiKey: Option<string>, upstream: UpstreamRequest -> UpstreamResult): (x: Exchange)
    ensures x.sent == [UpstreamRequest(YelpApiUrl + "/businesses/search",
                                       WithTerm(req.query, "resturants"), Str(Credential(apiKey)))]
    ensures x.outcome == Respond(upstream(x.sent[0]))
  {
    SearchHandler(InjectCredential(req, apiKey), upstream)
  }

  /** The mounted detail endpoint, middleware included. */
  function Detail(req: InboundRequest, apiKey: Option<string>, upstream: UpstreamRequest -> UpstreamResult): (x: Exchange)
    ensures x.sent == [UpstreamRequest(YelpApiUrl + "/businesses/" + req.id, map[], Str(Credential(apiKey)))]
    ensures x.outcome == Respond(upstream(x.sent[0]))
  {
    DetailHandler(InjectCredential(req, apiKey), upstream)
  }

  /** The inbound authorization header has no influence on either endpoint:
      two requests that differ only in it are handled identically. */
  lemma InboundCredentialIgnored(req1: InboundRequest, req2: InboundRequest,
                                 apiKey: Option<string>, upstream: UpstreamRequest -> UpstreamResult)
    requires req1.query == req2.query && req1.id == req2.id
    ensures Search(req1, apiKey, upstream) == Search(req2, apiKey, upstream)
    ensures Detail(req1, apiKey, upstream) == Detail(req2, apiKey, upstream)
  {
  }

  /** Applying the middleware twice is the same as applying it once. */
  lemma InjectCredentialIdempotent(req: InboundRequest, apiKey: Option<string>)
    ensures InjectCredential(InjectCredential(req, apiKey), apiKey) == InjectCredential(req, apiKey)
  {
  }
}

=== FILE: scenarios.dfy ===
/** The repository's test scenarios, replayed against the model of the
    mounted router and of the controller. Several of the tests' expectations
    differ from what the code does; each lemma states what the code does. */
module Scenarios {
  import opened Wrappers
  import opened Js
  import opened Thrown
  import opened Http
  import ErrorHandler
  import Controller
  import Router

  const NotFoundError: JsValue :=
    Obj(map["code" := Str("BUSINESS_NOT_FOUND"),
            "description" := Str("The requested business could not be found.")])

  /** The upstream mock: a 404 with `{error: {code, description}}` for the
      unknown identifier. */
  function NotFoundUpstream(request: UpstreamRequest): UpstreamResult
  {
    Rejected(AxiosError(Some(HttpResponse(404, Obj(map["error" := NotFoundError]))),
                        "Request failed with status code 404", map[]))
  }

  /** The detail lookup of an unknown business replies 404, but the body is
      `{error: {error: {code, description}}}`: `body.error` has no `code`. */
  lemma NotFoundKeepsWrapper(apiKey: Option<string>)
    ensures var req := InboundRequest(Undefined, map[], "invalid-restaurant-id");
            var x := Router.Detail(req, apiKey, NotFoundUpstream);
            && x.outcome.Normal?
            && x.outcome.value.status == Num(404)
            && x.outcome.value.body == ErrorBody(Obj(map["error" := NotFoundError]))
            && "code" !in Prop(x.outcome.value.body, "error").fields
  {
  }

  /** The same failure through the normaliser and the dispatcher gives the
      body the test expects, `{error: {code, description}}`. */
  lemma NotFoundThroughNormaliser()
    ensures var details := ErrorHandler.GetErrorDetails(NotFoundUpstream(UpstreamRequest("", map[], Undefined)).error);
            && details.Normal?
            && ErrorHandler.HandleControllerError(ErrorHandler.AsThrown(details.value))
                 == Reply(Num(404), ErrorBody(NotFoundError))
  {
  }

  /** A search without an authorization header is not rejected by the
      router: the upstream is called with the server credential. Only the
      controller answers 400. */
  lemma MissingAuthorization(apiKey: Option<string>, upstream: UpstreamRequest -> UpstreamResult)
    ensures var req := InboundRequest(Undefined, map["location" := Str("Stockholm")], "");
            && |Router.Search(req, apiKey, upstream).sent| == 1
            && Controller.SearchRestaurants(req, upstream)
                 == Exchange([], Normal(Reply(Num(400), ErrorBody(Str("Authorization header is missing or invalid")))))
  {
  }

  /** The router's search sends `location` through and `term=resturants`,
      not the `term=restaurants` the upstream mock expects. */
  lemma SearchSendsMisspelledTerm(apiKey: Option<string>, upstream: UpstreamRequest -> UpstreamResult)
    ensures var req := InboundRequest(Undefined, map["location" := Str("Stockholm")], "");
            Router.Search(req, apiKey, upstream).sent[0].params
              == map["location" := Str("Stockholm"), "term" := Str("resturants")]
  {
  }
}

=== FILE: thrown.dfy ===
/** What a `catch` clause can receive, and the completion of an evaluation that
    may throw. The upstream call is abstract: it either fulfils with a body or
    rejects with one of these values. */
module Thrown {
  import opened Wrappers
  import opened Js

  /** The upstream HTTP response an axios error carries. */
  datatype HttpResponse = HttpResponse(status: int, data: JsValue)

  /** A thrown value.
      - AxiosError: what `axios.isAxiosError` recognises; `response` is None
        when no response arrived (network failure, timeout, DNS).
      - RuntimeError: any other `Error` instance (`TypeError`, ...).
      - Other: a thrown value that is not an `Error` at all.
      An Error's `own` map holds the own properties it carries besides
      `message` and `response` (an http-errors value's `statusCode`, say);
      entries under those two keys are ignored. */
  datatype Thrown =
    | AxiosError(response: Option<HttpResponse>, message: string, own: map<string, JsValue>)
    | RuntimeError(name: string, message: string, own: map<string, JsValue>)
    | Other(value: JsValue)
  {
    /** `error instanceof Error`: axios errors are Error instances too. */
    predicate IsErrorInstance()
    {
      !Other?
    }

    /** `axios.isAxiosError(error) && error.response`. */
    predicate HasResponse()
    {
      AxiosError? && response.Some?
    }
  }

  /** `new TypeError(message)`. */
  function TypeError(message: string): Thrown
  {
    RuntimeError("TypeError", message, map[])
  }

  /** The completion of an evaluation: a value, or a thrown value. */
  datatype Completion<+T> = Normal(value: T) | Throw(exception: Thrown)
  {
    predicate IsFailure()
    {
      Throw?
    }

    function PropagateFailure<U>(): Completion<U>
      requires Throw?
    {
      Throw(exception)
    }

    function Extract(): T
      requires Normal?
    {
      value
    }
  }

  /** The keys an Error's `message` and `response` occupy. */
  const BuiltinKeys: set<string> := {"message", "response"}

  /** A thrown value seen as a JavaScript object, with the own properties code
      reads from it: an Error has `message` and its other own properties; an
      axios error that received a response also has `response`, with `status`
      and `data`. */
  function AsValue(error: Thrown): (v: JsValue)
    ensures error.IsErrorInstance() ==> v.Obj? && Prop(v, "message") == Str(error.message)
    ensures error.HasResponse() ==>
              Prop(Prop(v, "response"), "status") == Num(error.response.value.status)
              && Prop(Prop(v, "response"), "data") == error.response.value.data
    ensures error.IsErrorInstance() && !error.HasResponse() ==> Prop(v, "response") == Undefined
    ensures error.IsErrorInstance() ==>
              && v.fields.Keys - BuiltinKeys == error.own.Keys - BuiltinKeys
              && forall k :: k in error.own && k !in BuiltinKeys ==> k in v.fields && v.fields[k] == error.own[k]
    ensures error.Other? ==> v == error.value
  {
    match error
    case AxiosError(Some(r), message, own) =>
      Obj((own - BuiltinKeys)["message" := Str(message)]
            ["response" := Obj(map["status" := Num(r.status), "data" := r.data])])
    case AxiosError(None, message, own) => Obj((own - BuiltinKeys)["message" := Str(message)])
    case RuntimeError(_, message, own) => Obj((own - BuiltinKeys)["message" := Str(message)])
    case Other(v) => v
  }

  /** The property read `v.key`, which throws a TypeError on `null` and
      `undefined`. */
  function Get(v: JsValue, key: string): (r: Completion<JsValue>)
    ensures r.Throw? <==> Nullish(v)
    ensures r.Throw? ==> r.exception.RuntimeError? && r.exception.name == "TypeError"
    ensures r.Normal? ==> r.value == Prop(v, key)
  {
    if Nullish(v) then
      Throw(TypeError("Cannot read properties of " + ToString(v) + " (reading '" + key + "')"))
    else
      Normal(Prop(v, key))
  }

  /** The optional-chained read `v?.key`, which never throws. */
  function OptionalGet(v: JsValue, key: string): (r: JsValue)
    ensures Nullish(v) ==> r == Undefined
    ensures !Nullish(v) ==> r == Prop(v, key)
  {
    if Nullish(v) then Undefined else Prop(v, key)
  }

  /** The `in` operator `key in v`: a TypeError unless `v` is an object. */
  function In(key: string, v: JsValue): (r: Completion<bool>)
    ensures r.Throw? <==> !(v.Obj? || v.Arr?)
    ensures r.Normal? ==> (r.value <==> key in Spread(v))
  {
    if v.Obj? || v.Arr? then
      Normal(key in Spread(v))
    else
      Throw(TypeError("Cannot use 'in' operator to search for '" + key + "' in " + ToString(v)))
  }
}

=== FILE: variants.dfy ===
/** How the three ways the source maps an upstream failure relate: the
    controller's `fetchFromYelp`, the router's handlers, and the
    `getErrorDetails`/`handleControllerError` pair. */
module Variants {
  import opened Wrappers
  import opened Js
  import opened Thrown
  import opened Http
  import ErrorHandler
  import Controller
  import Router

  /** For a caught Error the router and the controller reply alike, except
      for an upstream status of 0: the controller passes it on, while the
      router's `|| 500` turns it into 500. */
  lemma FailureRepliesAgreeOnErrors(error: Thrown)
    requires error.IsErrorInstance()
    ensures !(error.HasResponse() && error.response.value.status == 0) ==>
              Router.FailureReply(error) == Normal(Controller.FailureReply(error))
    ensures error.HasResponse() && error.response.value.status == 0 ==>
              && Controller.FailureReply(error).status == Num(0)
              && Router.FailureReply(error) == Normal(Controller.FailureReply(error).(status := Num(500)))
  {
  }

  /** Upstream bodies of the shape `{error: e}` keep their wrapper in both
      endpoint variants, so the reply is `{error: {error: e}}`; only the
      normaliser strips it, leaving a copy of `e`. */
  lemma OnlyTheNormaliserUnwraps(status: int, nested: map<string, JsValue>, message: string)
    requires status != 0
    ensures var data := Obj(map["error" := Obj(nested)]);
            var error := AxiosError(Some(HttpResponse(status, data)), message, map[]);
            && Controller.FailureReply(error) == Reply(Num(status), ErrorBody(data))
            && Router.FailureReply(error) == Normal(Reply(Num(status), ErrorBody(data)))
            && ErrorHandler.GetErrorDetails(error) == Normal(ErrorHandler.ErrorDetails(nested, status))
  {
  }

  /** A thrown non-Error value: the controller always answers 500 with its
      `String(...)` text; the router answers only when the value is not
      `null` or `undefined`, and otherwise its handler throws and no reply is
      written. For a primitive or an array the router's error is `undefined`,
      which `res.json` writes as `{}`. */
  lemma ThrownNonErrors(v: JsValue)
    ensures Controller.FailureReply(Other(v)) == Reply(Num(500), ErrorBody(Str(ToString(v))))
    ensures Router.FailureReply(Other(v)).Throw? <==> Nullish(v)
    ensures !Nullish(v) && !v.Obj? ==> Router.FailureReply(Other(v)) == Normal(Reply(Num(500), ErrorBody(Undefined)))
  {
  }

  /** For an accepted string credential both search variants send the same
      query, except that the forced `term` is spelled differently, and the
      router sends its own credential instead of the caller's. */
  lemma SearchRequestsDiffer(req: InboundRequest, apiKey: Option<string>,
                             upstream: UpstreamRequest -> UpstreamResult)
    requires req.authorization.Str?
    ensures var c := Controller.SearchRestaurants(req, upstream).sent[0];
            var r := Router.Search(req, apiKey, upstream).sent[0];
            && c.url == r.url
            && c.params.Keys == r.params.Keys
            && (forall k :: k in c.params && k != "term" ==> c.params[k] == r.params[k])
            && c.params["term"] == Str("restaurants")
            && r.params["term"] == Str("resturants")
            && c.authorization == req.authorization
            && r.authorization == Str(Router.Credential(apiKey))
  {
  }

  /** On upstream success both variants of both endpoints reply 200 with the
      upstream body verbatim. */
  lemma SuccessIsVerbatim(req: InboundRequest, apiKey: Option<string>, data: JsValue)
    requires req.authorization.Str?
    ensures var upstream := (_: UpstreamRequest) => Fulfilled(data);
            && Controller.SearchRestaurants(req, upstream).outcome == Normal(Reply(Num(200), data))
            && Controller.GetRestaurantById(req, upstream).outcome == Normal(Reply(Num(200), data))
            && Router.Search(req, apiKey, upstream).outcome == Normal(Reply(Num(200), data))
            && Router.Detail(req, apiKey, upstream).outcome == Normal(Reply(Num(200), data))
  {
  }
}

=== FILE: wrappers.dfy ===
/** The optional-value datatype used for values the source may leave unset:
    an upstream response that never arrived, an environment variable. */
module Wrappers {

  datatype Option<+T> = None | Some(value: T)
}
